=== FILE: README.md ===
# ChatMate authentication core, modelled in Dafny

This project models the authentication layer of the ChatMate Android app. Five parts are covered:

- **The credential checks** of the sign-in and sign-up screens (`SignInUtils`). Each check returns the first failing rule's message in a fixed order, or `""`.
- **The repository flows** (`FirebaseRepository`). `signUpWithEmail`, `signInWithEmail` and `addUser` emit `Loading` and then at most one terminal result. The module also has the collision counts over the user list, and the write and read-back of a profile document.
- **The federated sign-in/sign-up decision** (`GoogleAuthUiClient.getSignInResponseFromIntent`). It returns a response and, on a successful sign-up, the one profile handed to the callback.
- **The view-model** (`AuthViewModel`). It is a class with the three published fields: the sign-in state, the sign-up state and the current profile. Its methods collect a flow's results one at a time, in emission order, with loops whose invariants tie each field to a fold of the results applied so far.
- **The `User` record and `Map<String, Any>.toUser`.** A decoding error names the first key, in argument order, that cannot be read. A stored profile decodes back to itself.

Every backend call is replaced by its outcome: either the value it returned or the exception it threw. These outcomes are parameters of the modelled operations:

- the user lists fetched;
- the uid of the account created or signed in;
- the stored profile;
- the document write;
- the image's download URL.

The email address pattern of the platform is the parameter `emailPattern` of the checks. The clock is the parameter `now`.

`Common` is the shared-types module: nullable values, call outcomes, exception kinds and `Long`. The other modules follow the source files: `UserModel`, `SignInUtils`, `FirebaseUtils`, `FirebaseRepository`, `GoogleAuthUiClient` and `AuthScreens`. `AuthScreens` holds the view-model class `AuthViewModel`.

Two behaviours of the code are worth knowing:

- The password length message (SignInUtils.kt:42) promises at most 30 characters. The length check skips blank passwords, and the password pattern (SignInUtils.kt:31) allows 32 characters. So a blank password of 31 or 32 characters is accepted (see Findings).
- Sign-up checks the email and then the username against fetched user lists before it creates the account (FirebaseRepository.kt:68-77). `isUsernameAlreadyExists` ignores the list it is given and fetches a fresh one.

## Model

| member | source | states |
|---|---|---|
| `UserModel.ToUser` | app/src/main/java/com/example/signalclone/domain/models/user/UserModel.kt:16-26 | Decoding succeeds exactly when the five mandatory keys hold values of the right type and the two optional keys are absent, null or strings. Each field is copied from the key of the same name, and an absent or null optional key gives null. A failure names the first unreadable key in argument order, as a null-pointer failure (absent or null) or a cast failure. |
| `UserModel.ToDocument` | app/src/main/java/com/example/signalclone/domain/models/user/UserModel.kt:6-14 | The document a `User` is stored as is always one `toUser` accepts. |
| `UserModel.DecodeStored` | app/src/main/java/com/example/signalclone/domain/models/user/UserModel.kt:6-26 | Decoding a stored profile gives back the same profile, with the defaults (empty ids, null image and link, the default bio) preserved. |
| `SignInUtils.DotRun` | app/src/main/java/com/example/signalclone/ui/screens/auth_screens/utils/SignInUtils.kt:31 | The prefix `.` can consume has no line terminator and stops at the first one. |
| `SignInUtils.PasswordPatternShape` | app/src/main/java/com/example/signalclone/ui/screens/auth_screens/utils/SignInUtils.kt:31 | `^(?=.{8,hi}$)(?!-).*$` matches a whole password exactly when the password has 8 to `hi` characters, no leading `-` and no line terminator. |
| `SignInUtils.IsEmailValid` | app/src/main/java/com/example/signalclone/ui/screens/auth_screens/utils/SignInUtils.kt:93-100 | The result is `""` exactly when the email is non-blank and matches the address pattern. Otherwise it is the blank message or the pattern message, in that priority. |
| `SignInUtils.IsUsernameValid` | app/src/main/java/com/example/signalclone/ui/screens/auth_screens/utils/SignInUtils.kt:69-91 | The result is `""` exactly when the name has 3 to 30 characters from `[a-zA-Z0-9_.]` and does not start or end with `_`. Non-blankness follows from the character class. Every result is one of the four fixed messages or `""`. |
| `SignInUtils.UsernameChecksInOrder` | app/src/main/java/com/example/signalclone/ui/screens/auth_screens/utils/SignInUtils.kt:73-87 | For every name, the checks short-circuit in the order blank, length, charset, underscore. Each message is given exactly when its rule fails and every earlier rule passes. |
| `SignInUtils.UsernameCheckExamples` | app/src/main/java/com/example/signalclone/ui/screens/auth_screens/utils/SignInUtils.kt:73-87 | On examples: `"_a"` gets the length message, `"_ab"` the underscore message, `"a b"` the charset message and `"   "` the blank message. |
| `SignInUtils.VerifySignInDetails` | app/src/main/java/com/example/signalclone/ui/screens/auth_screens/utils/SignInUtils.kt:53-67 | An email error is returned unchanged, whatever the password. The result is `""` exactly when the email passes and the password has 8 to 32 characters, no leading `-`, no line terminator, and at most 30 characters unless it is blank. With a valid email, every result is `""`, the length message or the invalid-password message. |
| `SignInUtils.VerifySignUpDetails` | app/src/main/java/com/example/signalclone/ui/screens/auth_screens/utils/SignInUtils.kt:33-51 | The result is the sign-in check's message if that is non-empty, and otherwise the username check's message. Email and password errors always win. |
| `SignInUtils.EmailErrorFirst` | app/src/main/java/com/example/signalclone/ui/screens/auth_screens/utils/SignInUtils.kt:36-39 | Both the sign-in and sign-up checks return the email message for every password and username. |
| `SignInUtils.PasswordLengthMessage` | app/src/main/java/com/example/signalclone/ui/screens/auth_screens/utils/SignInUtils.kt:41-43 | With a valid email, the sign-in check and its correction give the length message exactly to a non-blank password shorter than 8 or longer than 30. The sign-up check gives it to those passwords too. Every other refused password gets "Invalid password…". For example, the empty password does. |
| `SignInUtils.LeadingHyphenRefused` | app/src/main/java/com/example/signalclone/ui/screens/auth_screens/utils/SignInUtils.kt:44 | With a valid email, a password of 8 to 30 characters that starts with `-` gets "Invalid password. Please enter a valid password". This holds in the sign-up check (line 44) and the sign-in check (line 63). |
| `SignInUtils.BlankLongPasswordAccepted` | app/src/main/java/com/example/signalclone/ui/screens/auth_screens/utils/SignInUtils.kt:60-65 | With a valid email, a password of 31 spaces is accepted. |
| `SignInUtils.VerifySignInDetailsCorrected` | app/src/main/java/com/example/signalclone/ui/screens/auth_screens/utils/SignInUtils.kt:53-67 | With the pattern bounded by 30, the result is `""` exactly when the email passes and the password has 8 to 30 characters, no leading `-` and no line terminator. With a valid email, every result is `""`, the length message or the invalid-password message. |
| `SignInUtils.CorrectionOnlyRefusesLongBlank` | app/src/main/java/com/example/signalclone/ui/screens/auth_screens/utils/SignInUtils.kt:31 | Wherever the two verdicts differ, the password is whitespace-only with 31 or 32 characters, the code accepts it and the bound-30 correction refuses it. Line terminators are whitespace that both refuse. |
| `FirebaseRepository.CaughtMessage` | app/src/main/java/com/example/signalclone/domain/repository/FirebaseRepository.kt:81-87 | `HttpException` maps to "Oops, something went wrong" and `IOException` to the connection message. Any other exception maps to its own message, or to "oops, an unknown error occurred" when it has none. |
| `FirebaseRepository.CountMatchingNonZero` | app/src/main/java/com/example/signalclone/domain/repository/FirebaseRepository.kt:109 | A count of matching entries is non-zero exactly when some non-null entry matches. |
| `FirebaseRepository.IsEmailAlreadyExists` | app/src/main/java/com/example/signalclone/domain/repository/FirebaseRepository.kt:107-110 | True exactly when some non-null profile in the list has that email. |
| `FirebaseRepository.IsUsernameAlreadyExists` | app/src/main/java/com/example/signalclone/domain/repository/FirebaseRepository.kt:114-118 | True exactly when some non-null profile in the freshly fetched list has that username. |
| `FirebaseRepository.SignUpEmissions` | app/src/main/java/com/example/signalclone/domain/repository/FirebaseRepository.kt:61-88 | Sign-up emits `Loading` first, then at most one more result, never a second `Loading`. `Success` is emitted only as `[Loading, Success]`, and only when creation returned an account. A failed fetch of the user list for the email check, or for the username check once the email is free, gives `[Loading, Failed(mapped message)]`. |
| `FirebaseRepository.SignUpWithEmail` | app/src/main/java/com/example/signalclone/domain/repository/FirebaseRepository.kt:61-88 | The step-by-step flow with early returns emits exactly the specified sequence. |
| `FirebaseRepository.EmailCollisionFirst` | app/src/main/java/com/example/signalclone/domain/repository/FirebaseRepository.kt:68-72 | A taken email gives exactly `[Loading, Failed("Email is already in use.")]`. The username fetch and account creation have no influence on the result. |
| `FirebaseRepository.UsernameCollisionSecond` | app/src/main/java/com/example/signalclone/domain/repository/FirebaseRepository.kt:74-77 | A free email and a taken username give exactly `[Loading, Failed("Username is already in use.")]`, whatever creation would do. |
| `FirebaseRepository.CreationDecides` | app/src/main/java/com/example/signalclone/domain/repository/FirebaseRepository.kt:78-87 | Once both checks pass, a created account gives `[Loading, Success]`. No account gives `[Loading]` alone, and an exception gives its mapped failure. |
| `FirebaseRepository.DuplicateUsernameScenario` | app/src/main/java/com/example/signalclone/domain/repository/FirebaseRepository.kt:66-77 | Signing up "abc_123" when that name is already stored is refused with the username message. |
| `FirebaseRepository.SignInEmissions` | app/src/main/java/com/example/signalclone/domain/repository/FirebaseRepository.kt:90-105 | Sign-in emits `Loading` and then exactly one terminal result. That result is `Success` exactly when an account was signed in. No account gives the "No user exist with this email" failure, and an exception gives its mapped message. |
| `FirebaseRepository.SignInWithEmail` | app/src/main/java/com/example/signalclone/domain/repository/FirebaseRepository.kt:90-105 | The step-by-step flow emits exactly the specified sequence. |
| `FirebaseRepository.AddUserRun` | app/src/main/java/com/example/signalclone/domain/repository/FirebaseRepository.kt:39-49 | `addUser` emits `Loading` first. A completed write gives exactly `[Loading, Success]`. A cancellation is caught and gives `[Loading, Failed(its message, or "oops, an unknown error occurred")]`. Any other exception escapes after `Loading`. |
| `FirebaseRepository.AddUser` | app/src/main/java/com/example/signalclone/domain/repository/FirebaseRepository.kt:39-49 | The step-by-step flow gives exactly the specified run. A completed write stores `user` under its id (`SetUser`), so `getUser` then returns it; any other outcome leaves the collection unchanged. |
| `FirebaseRepository.GetAfterSet` | app/src/main/java/com/example/signalclone/domain/repository/FirebaseRepository.kt:42-53 | `getUser` after `set(user)` returns that user, and the documents of other ids are unchanged. |
| `GoogleAuthUiClient.GetSignInResponseFromIntent` | app/src/main/java/com/example/signalclone/ui/screens/auth_screens/utils/GoogleAuthUiClient.kt:54-129 | The response carries a profile exactly when signing in to an account that has a stored profile, and then it is that profile with no error. The callback runs at most once, exactly on a successful sign-up with a callback, and receives `User(uid, username, email, photoUrl)` with an empty response. A cancellation from the credential sign-in, or from the profile lookup after it, is rethrown, and nothing else is. |
| `GoogleAuthUiClient.NoAccountResponse` | app/src/main/java/com/example/signalclone/ui/screens/auth_screens/utils/GoogleAuthUiClient.kt:64-69 | No account from the credential sign-in gives `(null, "An unknown error occurred while signing in with google. ...")`. |
| `GoogleAuthUiClient.SignInResponses` | app/src/main/java/com/example/signalclone/ui/screens/auth_screens/utils/GoogleAuthUiClient.kt:73-86 | Signing in with no stored profile gives the not-linked error. With a stored profile it gives `(profile, null)`. |
| `GoogleAuthUiClient.SignUpResponses` | app/src/main/java/com/example/signalclone/ui/screens/auth_screens/utils/GoogleAuthUiClient.kt:87-119 | An existing profile gives "Account already linked". A null or empty email gives the no-email error. Neither calls back, whether or not a callback was supplied. Otherwise the response is `(null, null)`. A supplied callback, given a username, gets the new profile. Without one, nothing is called back. |
| `GoogleAuthUiClient.ExceptionResponse` | app/src/main/java/com/example/signalclone/ui/screens/auth_screens/utils/GoogleAuthUiClient.kt:121-128 | A non-cancellation exception from either call gives `(null, e.message)`. An exception from the credential sign-in gives this whatever the profile lookup would have returned, because that lookup is never made. |
| `AuthScreens.VerifyUsername` | app/src/main/java/com/example/signalclone/ui/screens/auth_screens/AuthViewModel.kt:248-258 | A malformed name gets its format message. A well-formed name gets "User already exists with provided email" exactly when the fresh list holds it, and `""` exactly when it does not. A failed fetch throws. |
| `AuthScreens.MalformedNameSkipsStore` | app/src/main/java/com/example/signalclone/ui/screens/auth_screens/AuthViewModel.kt:249-250 | For a malformed name the result does not depend on the store and is never `""`. |
| `AuthScreens.SignInStates` | app/src/main/java/com/example/signalclone/ui/screens/auth_screens/AuthViewModel.kt:97-127 | The sign-in states published while a flow is collected are, one per result, the fold of the results emitted so far. |
| `AuthScreens.SignInFlowStates` | app/src/main/java/com/example/signalclone/ui/screens/auth_screens/AuthViewModel.kt:97-127 | A sign-in publishes `(false, "", loading)` and then `(success, "" or the failure message, not loading)`. Success holds exactly when the SDK signed an account in. |
| `AuthScreens.AddUserOutcome` | app/src/main/java/com/example/signalclone/ui/screens/auth_screens/AuthViewModel.kt:185-210 | A completed write ends in `isSignUpSuccessful=true, isSigningUp=false, error=""`. A cancelled write ends not loading with its message, or "oops, an unknown error occurred" when it has none. Any other failure leaves the sign-up loading. |
| `AuthScreens.EmailSignUpRefused` | app/src/main/java/com/example/signalclone/ui/screens/auth_screens/AuthViewModel.kt:143-157 | A refused email sign-up ends with `isSigningUp=false` and the failure message. `isSignUpSuccessful` keeps its old value. |
| `AuthScreens.EmailSignUpStalls` | app/src/main/java/com/example/signalclone/ui/screens/auth_screens/AuthViewModel.kt:152-157 | If creation returns no account, the sign-up stays loading with an empty error. |
| `AuthScreens.EmailSignUpSucceeds` | app/src/main/java/com/example/signalclone/ui/screens/auth_screens/AuthViewModel.kt:159-207 | Free email and username, a created account and a completed write end in a successful, not-loading sign-up with no error. |
| `AuthScreens.AuthViewModel.constructor` | app/src/main/java/com/example/signalclone/ui/screens/auth_screens/AuthViewModel.kt:37-52 | Both states start at their defaults. The current profile is the one restored for an existing session, or null. |
| `AuthScreens.AuthViewModel.SignInWithEmail` | app/src/main/java/com/example/signalclone/ui/screens/auth_screens/AuthViewModel.kt:95-130 | The sign-in state is the fold of the sign-in results. The sign-up state is unchanged. The current profile becomes the session's profile exactly when sign-in succeeded. If `getUser` throws after `Success`, the exception escapes, the sign-in state stays as `Loading` left it, and the profile is unchanged. |
| `AuthScreens.AuthViewModel.AddUser` | app/src/main/java/com/example/signalclone/ui/screens/auth_screens/AuthViewModel.kt:183-212 | The sign-up state is the fold of `addUser`'s results, and the other fields are unchanged. The collection holds `user` exactly when the write completed. |
| `AuthScreens.AuthViewModel.SignUpWithEmail` | app/src/main/java/com/example/signalclone/ui/screens/auth_screens/AuthViewModel.kt:132-180 | Without `Success`, the sign-up state is the fold of the results and the profile is unchanged. With `Success`, the current profile is built from the account uid and the form's username, email and bio link, with an image URL only if an image was given, and the profile write's results follow `Loading`. That profile is stored when the write completes. Without `Success` nothing is stored. |
| `AuthScreens.AuthViewModel.SignUpWithGoogle` | app/src/main/java/com/example/signalclone/ui/screens/auth_screens/AuthViewModel.kt:73-93 | A non-empty response error ends in `isSigningUp=false, isSignUpSuccessful=false, error=message`. A callback runs `addUser` after `isSigningUp=true` and stores the callback's profile when the write completes. Otherwise only `isSigningUp=true` is set, and nothing is stored. |
| `AuthScreens.AuthViewModel.OnSignInResult` | app/src/main/java/com/example/signalclone/ui/screens/auth_screens/AuthViewModel.kt:214-222 | The current profile becomes `data`. `isSignInSuccessful` becomes `data != null` and `signInError` becomes `error`. `isLoading` and the sign-up state are unchanged. |
| `AuthScreens.AuthViewModel.LoadCurrentUser` | app/src/main/java/com/example/signalclone/ui/screens/auth_screens/AuthViewModel.kt:260-266 | With a session, the current profile becomes what `getUser` returns. Without one, nothing changes. |
| `AuthScreens.AuthViewModel.SignOut` | app/src/main/java/com/example/signalclone/ui/screens/auth_screens/AuthViewModel.kt:233-238 | The profile is null and both states are at their defaults, whatever they were before. |
| `AuthScreens.AuthViewModel.ResetSignUpState` | app/src/main/java/com/example/signalclone/ui/screens/auth_screens/AuthViewModel.kt:240-242 | The sign-up state becomes the default, independent of the old state, so the reset is idempotent. Nothing else changes. |
| `AuthScreens.AuthViewModel.ResetSignInState` | app/src/main/java/com/example/signalclone/ui/screens/auth_screens/AuthViewModel.kt:244-246 | The sign-in state becomes the default, so the reset is idempotent. Nothing else changes. |

## Left out

- **Backend SDK calls.** Firebase Auth, Firestore, Storage and the one-tap `SignInClient` are represented only by their outcomes, which are parameters. Token extraction from the intent (GoogleAuthUiClient.kt:60-62), which runs outside the `try`, is not part of this model.
- **Other operations that only call the SDK.** `uploadProfileImage`, `getImage`, `getAllUsers`, `forgotPassword`, `GoogleAuthUiClient.signIn` and `GoogleAuthUiClient.signOut` are not modelled. `getImage` appears only as the `downloadUrl` parameter, and its failure, which would crash the collector, is not modelled.
- **`android.util.Patterns.EMAIL_ADDRESS`.** It is not part of this model. Every check takes the pattern as the parameter `emailPattern`.
- **Concurrency.** Coroutine launches, `collectLatest` cancellation, `StateFlow` observation and interleaving between overlapping launches are not modelled. Each flow is applied in emission order. The `addUser` launched from a collector is applied at the point of launch. This gives the same final states as the app. The email sign-up collector does nothing after launching `addUser` (AuthViewModel.kt:175). The federated sign-up updates the state after the call only when the response has an error (AuthViewModel.kt:82), and then no callback ran.
- **Exceptions that escape into `viewModelScope`.** The app's reaction is not modelled. Three such exceptions are represented, and for each the model keeps the state reached before the exception:
  - an `addUser` write failure other than a cancellation;
  - a `getUser` failure after sign-in succeeds;
  - a cancellation rethrown by `getSignInResponseFromIntent` during `signUpWithGoogle`.
- **`getUser` failures in `init` (AuthViewModel.kt:50) and in `loadCurrentUser` (AuthViewModel.kt:263).** These are not representable. The restored profile and the session's profile are given as values.
- **`IsLineTerminator` follows Android's ICU-based `java.util.regex`.** It includes the vertical tab and the form feed. On an OpenJDK runtime these two characters would not end `.` or `$`.
- **`auth.currentUser` on sign-up success.** The model takes it to be the account just created. So the `!!` failure on a null user (AuthViewModel.kt:160) is not representable, and neither is a profile stored under some other uid.
- **`onEvent`.** It only dispatches to the two sign-up methods, which are modelled.
- **Screens, navigation, theming, DI wiring and route constants.** All Compose UI is out of scope.
- **Logging and `printStackTrace`.** These are dropped.
- **`System.currentTimeMillis()`.** The clock is the parameter `now`.
- **`Uri` and `Intent`.** They are opaque values.
- **Characters outside the Basic Multilingual Plane.** Kotlin's `length` counts them as two UTF-16 units. Here a string is a sequence of Unicode scalar values, and each counts as one.
- **The whitespace set.** It follows current Unicode data. U+180E is not whitespace.
- **`GoogleAuthUiClient.GetSignInResponseFromIntent`: the `username!!` failure.** When a callback is supplied without a username, the model gives `(null, null)`, because a Kotlin `!!` failure carries no message. The app always passes a username.

## Findings

| source | as written | input that shows it | evidently intended | confidence | as-written member | corrected member |
|---|---|---|---|---|---|---|
| app/src/main/java/com/example/signalclone/ui/screens/auth_screens/utils/SignInUtils.kt:31 | The length check `(length < 8 \|\| length > 30) && isNotBlank()` skips blank passwords, and `passRegex` allows up to 32 characters. | A valid email with a password of 31 spaces is accepted (`""`). | An accepted password has at most 30 characters, as the length message says. The pattern should be bounded by 30. | medium, not executed | `SignInUtils.BlankLongPasswordAccepted` | `SignInUtils.VerifySignInDetailsCorrected` |

=== FILE: auth_view_model.dfy ===
/** The authentication view-model (AuthViewModel.kt): three published
    fields, the sign-in state, the sign-up state and the current profile,
    each updated once per result a repository flow emits, in emission order.

    Coroutine launches are sequential here: a flow's results are applied one
    after another, and a flow launched from a collector (`addUser`) is applied
    where it is launched. */
module AuthScreens {
  import opened Common
  import opened UserModel
  import opened SignInUtils
  import opened FirebaseUtils
  import opened FirebaseRepository
  import opened GoogleAuthUiClient

  const UsernameTaken := "User already exists with provided email"

  // ---------------------------------------------------------------------
  // The updates each collector applies

  /** The `copy` the collector of `signInWithEmail` applies for one result. */
  function SignInAfter(s: SignInState, r: SignInResult): SignInState
  {
    match r
    case Failed(m) => s.(isSignInSuccessful := false, signInError := Some(m), isLoading := false)
    case Loading => s.(isSignInSuccessful := false, signInError := Some(""), isLoading := true)
    case Success => s.(isSignInSuccessful := true, signInError := Some(""), isLoading := false)
  }

  /** The sign-in state after applying `rs` in order. */
  function CollectSignIn(s: SignInState, rs: seq<SignInResult>): SignInState
    decreases |rs|
  {
    if rs == [] then s else SignInAfter(CollectSignIn(s, rs[..|rs| - 1]), rs[|rs| - 1])
  }

  /** The states the sign-in state passes through while `rs` is applied. */
  function SignInStates(s: SignInState, rs: seq<SignInResult>): (states: seq<SignInState>)
    ensures |states| == |rs|
    ensures forall i :: 0 <= i < |rs| ==> states[i] == CollectSignIn(s, rs[..i + 1])
    decreases |rs|
  {
    if rs == [] then []
    else SignInStates(s, rs[..|rs| - 1]) + [CollectSignIn(s, rs)]
  }

  /** The `copy` the collector of `addUser` applies for one result; the
      collector of `signUpWithEmail` applies the same for `Failed` and
      `Loading`. */
  function SignUpAfter(s: SignupState, r: SignInResult): SignupState
  {
    match r
    case Failed(m) => s.(isSigningUp := false, error := m)
    case Loading => s.(isSigningUp := true, error := "")
    case Success => s.(isSignUpSuccessful := true, isSigningUp := false, error := "")
  }

  /** The sign-up state after applying `rs` in order. */
  function CollectSignUp(s: SignupState, rs: seq<SignInResult>): SignupState
    decreases |rs|
  {
    if rs == [] then s else SignUpAfter(CollectSignUp(s, rs[..|rs| - 1]), rs[|rs| - 1])
  }

  /** The profile the email sign-up builds once the account exists: the
      account's uid, the form's username, email and bio link, and the image's
      download URL when an image was chosen. */
  function EmailSignUpProfile(uid: string, username: string, email: string, bioLink: Option<string>,
                              imageUri: Option<Uri>, downloadUrl: string, now: Long): User
  {
    DefaultUser(now).(userId := uid, username := username, userEmail := email, userBioLink := bioLink,
                      userProfileImage := if imageUri.Some? then Some(downloadUrl) else None)
  }

  // ---------------------------------------------------------------------
  // verifyUsername

  /** `verifyUsername`: the format check first; only a well-formed name is
      looked up in a freshly fetched user list, whose fetch may throw. */
  function VerifyUsername(username: string, freshUsers: Call<seq<Option<User>>>): (r: Call<string>)
    ensures IsUsernameValid(username) != "" ==> r == Ok(IsUsernameValid(username))
    ensures r == Ok("") <==>
      IsUsernameValid(username) == "" && freshUsers.Ok?
      && !exists i :: 0 <= i < |freshUsers.value| && freshUsers.value[i].Some?
                      && freshUsers.value[i].value.username == username
    ensures r == Ok(UsernameTaken) <==>
      IsUsernameValid(username) == "" && freshUsers.Ok?
      && exists i :: 0 <= i < |freshUsers.value| && freshUsers.value[i].Some?
                     && freshUsers.value[i].value.username == username
    ensures r.Err? <==> IsUsernameValid(username) == "" && freshUsers.Err?
  {
    var isUsernameValid := IsUsernameValid(username);
    if isUsernameValid != "" then Ok(isUsernameValid)
    else match freshUsers
      case Err(e) => Err(e)
      case Ok(users) => if IsUsernameAlreadyExists(users, username) then Ok(UsernameTaken) else Ok("")
  }

  /** A malformed name is refused without looking at the store. */
  lemma MalformedNameSkipsStore(username: string, users1: Call<seq<Option<User>>>, users2: Call<seq<Option<User>>>)
    requires IsUsernameValid(username) != ""
    ensures VerifyUsername(username, users1) == VerifyUsername(username, users2) != Ok("")
  {
  }

  // ---------------------------------------------------------------------
  // Properties of the collectors

  /** The sign-in flow publishes the loading state, then a terminal state:
      successful with an empty error exactly when the SDK signed an account
      in, otherwise unsuccessful with the flow's failure message. Nothing of
      the state before it survives. */
  lemma {:induction false} SignInFlowStates(s: SignInState, signIn: Call<Option<string>>)
    ensures var rs := SignInEmissions(signIn);
      var success := signIn.Ok? && signIn.value.Some?;
      SignInStates(s, rs) == [
        SignInState(false, Some(""), true),
        SignInState(success, Some(if success then "" else rs[1].message), false)]
  {
    var rs := SignInEmissions(signIn);
    assert rs[..1] == [Loading];
    assert rs[..1][..0] == [];
  }

  /** The sign-up state after an `addUser` flow: a completed write marks the
      sign-up successful; a cancelled one stops loading with its message; any
      other exception escapes after `Loading`, leaving the state loading. */
  lemma {:induction false} AddUserOutcome(s: SignupState, write: Call<()>)
    ensures var f := CollectSignUp(s, AddUserRun(write).emitted);
      && (write.Ok? ==> f == s.(isSignUpSuccessful := true, isSigningUp := false, error := ""))
      && (write.Err? && write.error.kind == Cancellation ==>
            f == s.(isSigningUp := false,
                    error := if write.error.message.Some? then write.error.message.value else UnknownError))
      && (write.Err? && write.error.kind != Cancellation ==> f == s.(isSigningUp := true, error := ""))
  {
    var rs := AddUserRun(write).emitted;
    var first := rs[..1];
    assert first == [Loading] && first[..|first| - 1] == [];
    assert CollectSignUp(s, first[..|first| - 1]) == s;
    assert first[|first| - 1] == Loading;
    var loading := CollectSignUp(s, first);
    assert loading == SignUpAfter(s, Loading);
    if |rs| == 2 {
      assert CollectSignUp(s, rs) == SignUpAfter(loading, rs[1]);
    } else {
      assert rs == rs[..1];
    }
  }

  /** A sign-up refused before any account exists (a collision or a caught
      exception) ends with the refusal message, not loading, and with the
      success flag as it was. */
  lemma {:induction false} EmailSignUpRefused(s: SignupState, username: string, email: string, calls: SignUpCalls)
    requires SignUpEmissions(username, email, calls)[|SignUpEmissions(username, email, calls)| - 1].Failed?
    ensures var rs := SignUpEmissions(username, email, calls);
      CollectSignUp(s, rs) == s.(isSigningUp := false, error := rs[1].message)
  {
    var rs := SignUpEmissions(username, email, calls);
    assert |rs| == 2;
    assert rs[..1] == [Loading];
    assert rs[..1][..0] == [];
    assert CollectSignUp(s, rs[..1]) == s.(isSigningUp := true, error := "");
  }

  /** An account creation that returns no account leaves the sign-up loading
      for good: the flow emits only `Loading`. */
  lemma EmailSignUpStalls(s: SignupState, username: string, email: string, calls: SignUpCalls)
    requires SignUpEmissions(username, email, calls) == [Loading]
    ensures CollectSignUp(s, SignUpEmissions(username, email, calls)) == s.(isSigningUp := true, error := "")
  {
    assert [Loading][..0] == [];
  }

  /** A sign-up whose email and username are free, whose account is created
      and whose profile is written ends successful, not loading, with no
      error; the rest of the sign-up state is as it was. */
  lemma EmailSignUpSucceeds(s: SignupState, username: string, email: string, calls: SignUpCalls)
    requires calls.allUsers.Ok? && !IsEmailAlreadyExists(calls.allUsers.value, email)
    requires calls.allUsersAgain.Ok? && !IsUsernameAlreadyExists(calls.allUsersAgain.value, username)
    requires calls.createUser.Ok? && calls.createUser.value.Some?
    ensures Success in SignUpEmissions(username, email, calls)
    ensures CollectSignUp(SignUpAfter(s, Loading), AddUserRun(Ok(())).emitted)
            == s.(isSignUpSuccessful := true, isSigningUp := false, error := "")
  {
    CreationDecides(username, email, calls);
    AddUserOutcome(SignUpAfter(s, Loading), Ok(()));
  }

  // ---------------------------------------------------------------------
  // The view-model

  class AuthViewModel {
    var signInState: SignInState
    var signupState: SignupState
    var currentUser: Option<User>

    /** Both states at their defaults; `restoredProfile` is what `init` loads
        for an existing session (`getUser` of its uid), or null without one. */
    constructor(restoredProfile: Option<User>)
      ensures signInState == DefaultSignInState && signupState == DefaultSignupState
      ensures currentUser == restoredProfile
    {
      signInState := DefaultSignInState;
      signupState := DefaultSignupState;
      currentUser := restoredProfile;
    }

    /** `signInWithEmail`: collects the repository's sign-in flow. On
        `Success` the current profile becomes `sessionProfile`, the outcome of
        `getUser` for the signed-in uid (null when there is no signed-in
        account or no profile). If that call throws, the exception escapes the
        collector, returned as `escaped`, before the sign-in state is updated:
        it stays as `Loading` left it and the profile is unchanged. */
    method SignInWithEmail(signIn: Call<Option<string>>, sessionProfile: Call<Option<User>>)
      returns (escaped: Option<Throwable>)
      modifies this
      ensures signupState == old(signupState)
      ensures signIn.Ok? && signIn.value.Some? && sessionProfile.Err? ==>
        && escaped == Some(sessionProfile.error)
        && signInState == CollectSignIn(old(signInState), [Loading])
        && currentUser == old(currentUser)
      ensures !(signIn.Ok? && signIn.value.Some? && sessionProfile.Err?) ==>
        && escaped == None
        && signInState == CollectSignIn(old(signInState), SignInEmissions(signIn))
        && currentUser == if signIn.Ok? && signIn.value.Some? then sessionProfile.value else old(currentUser)
    {
      var rs := FirebaseRepository.SignInWithEmail(signIn);
      ghost var success := rs[1] == Success;
      escaped := None;
      var i := 0;
      while i < |rs|
        invariant 0 <= i <= |rs|
        invariant escaped == None
        invariant signInState == CollectSignIn(old(signInState), rs[..i])
        invariant signupState == old(signupState)
        invariant i == 2 && success ==> sessionProfile.Ok? && currentUser == sessionProfile.value
        invariant !(i == 2 && success) ==> currentUser == old(currentUser)
      {
        assert rs[..i + 1] == rs[..i] + [rs[i]];
        if rs[i] == Success {
          match sessionProfile {
            case Err(e) =>
              assert rs[..i] == [Loading];
              escaped := Some(e);
              return;
            case Ok(profile) =>
              currentUser := profile;
          }
        }
        signInState := SignInAfter(signInState, rs[i]);
        i := i + 1;
      }
      assert rs[..i] == rs;
    }

    /** `addUser`: writes `user` to the `users` collection `store` and
        collects the repository's `addUser` flow into the sign-up state. */
    method AddUser(user: User, store: ProfileStore, write: Call<()>) returns (stored: ProfileStore)
      modifies this
      ensures signupState == CollectSignUp(old(signupState), AddUserRun(write).emitted)
      ensures signInState == old(signInState) && currentUser == old(currentUser)
      ensures stored == if write.Ok? then SetUser(store, user) else store
    {
      var run;
      run, stored := FirebaseRepository.AddUser(user, store, write);
      var rs := run.emitted;
      var i := 0;
      while i < |rs|
        invariant 0 <= i <= |rs|
        invariant signupState == CollectSignUp(old(signupState), rs[..i])
        invariant signInState == old(signInState) && currentUser == old(currentUser)
      {
        assert rs[..i + 1][..i] == rs[..i];
        signupState := SignUpAfter(signupState, rs[i]);
        i := i + 1;
      }
      assert rs[..i] == rs;
    }

    /** `signUpWithEmail`: collects the repository's sign-up flow. `Failed`
        and `Loading` update the sign-up state; `Success` builds the new
        profile, makes it current and runs `addUser` on it. The password only
        reaches the SDK, whose outcomes are `calls`; `downloadUrl` is what
        `getImage` returns after an upload and `write` the outcome of the
        profile write to the `users` collection `store`. The account that
        `auth.currentUser` names is taken to be the one just created. */
    method SignUpWithEmail(email: string, username: string, bioLink: Option<string>, imageUri: Option<Uri>,
                           calls: SignUpCalls, downloadUrl: string, now: Long,
                           store: ProfileStore, write: Call<()>)
      returns (stored: ProfileStore)
      modifies this
      ensures signInState == old(signInState)
      ensures Success !in SignUpEmissions(username, email, calls) ==>
        signupState == CollectSignUp(old(signupState), SignUpEmissions(username, email, calls))
        && currentUser == old(currentUser) && stored == store
      ensures Success in SignUpEmissions(username, email, calls) ==>
        var profile := EmailSignUpProfile(calls.createUser.value.value, username, email, bioLink,
                                          imageUri, downloadUrl, now);
        && currentUser == Some(profile)
        && signupState == CollectSignUp(SignUpAfter(old(signupState), Loading), AddUserRun(write).emitted)
        && stored == if write.Ok? then SetUser(store, profile) else store
    {
      var rs := FirebaseRepository.SignUpWithEmail(username, email, calls);
      stored := store;
      var i := 0;
      while i < |rs|
        invariant 0 <= i <= |rs|
        invariant signInState == old(signInState)
        invariant Success !in rs[..i] ==>
          signupState == CollectSignUp(old(signupState), rs[..i]) && currentUser == old(currentUser)
          && stored == store
        invariant Success in rs[..i] ==>
          var profile := EmailSignUpProfile(calls.createUser.value.value, username, email, bioLink,
                                            imageUri, downloadUrl, now);
          && i == |rs|
          && currentUser == Some(profile)
          && signupState == CollectSignUp(SignUpAfter(old(signupState), Loading), AddUserRun(write).emitted)
          && stored == if write.Ok? then SetUser(store, profile) else store
      {
        assert rs[..i + 1] == rs[..i] + [rs[i]];
        match rs[i] {
          case Success =>
            assert rs == [Loading, Success] && i == 1;
            assert rs[..1][..0] == [];
            // auth.currentUser is the account just created
            var uid := calls.createUser.value.value;
            var user := EmailSignUpProfile(uid, username, email, bioLink, imageUri, downloadUrl, now);
            currentUser := Some(user);
            stored := AddUser(user, store, write);
          case _ =>
            signupState := SignUpAfter(signupState, rs[i]);
        }
        i := i + 1;
      }
      assert rs[..i] == rs;
    }

    /** `signUpWithGoogle`: marks the sign-up as running, asks the federated
        client to sign up (its callback runs `addUser`), and shows the
        response's error if it has a non-empty one. */
    method SignUpWithGoogle(username: string, calls: GoogleCalls, now: Long, store: ProfileStore, write: Call<()>)
      returns (stored: ProfileStore)
      modifies this
      ensures signInState == old(signInState) && currentUser == old(currentUser)
      ensures var out := GetSignInResponseFromIntent(SignUp, Some(username), true, calls, now);
        out.Responded? && out.response.error.Some? && out.response.error.value != "" ==>
          signupState == old(signupState).(isSigningUp := false, isSignUpSuccessful := false,
                                           error := out.response.error.value)
      ensures var out := GetSignInResponseFromIntent(SignUp, Some(username), true, calls, now);
        out.Responded? && out.callbackUser.Some? ==>
          && signupState == CollectSignUp(old(signupState).(isSigningUp := true), AddUserRun(write).emitted)
          && stored == if write.Ok? then SetUser(store, out.callbackUser.value) else store
      ensures var out := GetSignInResponseFromIntent(SignUp, Some(username), true, calls, now);
        !(out.Responded? && out.callbackUser.Some?) ==> stored == store
      ensures var out := GetSignInResponseFromIntent(SignUp, Some(username), true, calls, now);
        out.Rethrown? || (out.callbackUser.None? && (out.response.error.None? || out.response.error.value == "")) ==>
          signupState == old(signupState).(isSigningUp := true)
    {
      signupState := signupState.(isSigningUp := true);
      stored := store;
      var res := GetSignInResponseFromIntent(SignUp, Some(username), true, calls, now);
      if res.Responded? {
        if res.callbackUser.Some? {
          stored := AddUser(res.callbackUser.value, store, write);
        }
        var error := res.response.error;
        if error.Some? && error.value != "" {
          signupState := signupState.(isSigningUp := false, isSignUpSuccessful := false, error := error.value);
        }
      }
    }

    /** `onSignInResult`: the response's profile becomes current, success
        means a profile came back, and the error is the response's; the
        loading flag is left as it was. */
    method OnSignInResult(result: SignInResponse)
      modifies this
      ensures currentUser == result.data
      ensures signInState == SignInState(result.data.Some?, result.error, old(signInState).isLoading)
      ensures signupState == old(signupState)
    {
      currentUser := result.data;
      signInState := signInState.(isSignInSuccessful := result.data.Some?, signInError := result.error);
    }

    /** `loadCurrentUser`: `session` is null when nobody is signed in, and
        otherwise holds what `getUser` returns for the session's uid. */
    method LoadCurrentUser(session: Option<Option<User>>)
      modifies this
      ensures currentUser == if session.Some? then session.value else old(currentUser)
      ensures signInState == old(signInState) && signupState == old(signupState)
    {
      if session.Some? {
        currentUser := session.value;
      }
    }

    /** `signOut`: drops the profile and resets both states, whatever they were. */
    method SignOut()
      modifies this
      ensures currentUser == None
      ensures signInState == DefaultSignInState && signupState == DefaultSignupState
    {
      currentUser := None;
      ResetSignUpState();
      ResetSignInState();
    }

    /** `resetSignUpState`; the new state does not depend on the old one, so
        resetting twice is resetting once. */
    method ResetSignUpState()
      modifies this
      ensures signupState == DefaultSignupState
      ensures signInState == old(signInState) && currentUser == old(currentUser)
    {
      signupState := DefaultSignupState;
    }

    /** `resetSignInState`; idempotent for the same reason. */
    method ResetSignInState()
      modifies this
      ensures signInState == DefaultSignInState
      ensures signupState == old(signupState) && currentUser == old(currentUser)
    {
      signInState := DefaultSignInState;
    }
  }
}

=== FILE: common.dfy ===
/** Types shared by every part of the model: Kotlin's nullable values, the
    outcome of a call that may throw, the exceptions the core tells apart, and
    Kotlin's 64-bit `Long`. */
module Common {

  /** Kotlin's nullable `T?`: `None` is `null`. */
  datatype Option<+T> = None | Some(value: T)

  /** What a call that may throw gives back: its value, or what it threw.
      Usable with `:-`. */
  datatype Result<+T, +E> = Ok(value: T) | Err(error: E) {
    predicate IsFailure() { Err? }

    function PropagateFailure<U>(): Result<U, E>
      requires Err?
    {
      Err(error)
    }

    function Extract(): T
      requires Ok?
    {
      value
    }
  }

  /** The exception classes the core's `catch` clauses distinguish:
      `coil.network.HttpException`, `java.io.IOException`, the coroutine
      `CancellationException`, and every other `Exception`. */
  datatype ExceptionKind = Http | IO | Cancellation | Other

  /** A thrown exception: its class and its (nullable) `message`. */
  datatype Throwable = Throwable(kind: ExceptionKind, message: Option<string>)

  /** The outcome of an SDK call that returns a `T` or throws. */
  type Call<T> = Result<T, Throwable>

  /** Kotlin's `Long`. */
  type Long = x: int | -0x8000_0000_0000_0000 <= x < 0x8000_0000_0000_0000
}

=== FILE: firebase_repository.dfy ===
/** The repository's sign-up, sign-in and profile-write flows
    (FirebaseRepository.kt).

    Each flow emits `Loading`, then at most one terminal result. The calls it
    makes into the backend SDK are not modelled: their outcomes (the user
    lists fetched, the account created or signed in, the document write)
    are parameters, each a value or the exception the call threw. */
module FirebaseRepository {
  import opened Common
  import opened UserModel
  import opened FirebaseUtils

  const EmailInUse := "Email is already in use."
  const UsernameInUse := "Username is already in use."
  const HttpFailure := "Oops, something went wrong"
  const ServerUnreachable := "Couldn't reach server check your internet connection"
  const UnknownError := "oops, an unknown error occurred"
  const NoSuchUser := "No user exist with this email. Please Sign up to make a new account"

  /** What a flow run produced: the results it emitted, in order, and the
      exception that escaped it, if any. */
  datatype FlowRun = FlowRun(emitted: seq<SignInResult>, escaped: Option<Throwable>)

  /** The backend calls `signUpWithEmail` makes, as outcomes:
      `getAllUsers()` for the email check, the second `getAllUsers()` that
      `isUsernameAlreadyExists` makes, and the uid of the account
      `createUserWithEmailAndPassword` returns (null when it returns none). */
  datatype SignUpCalls = SignUpCalls(
    allUsers: Call<seq<Option<User>>>,
    allUsersAgain: Call<seq<Option<User>>>,
    createUser: Call<Option<string>>)

  // ---------------------------------------------------------------------
  // Exception mapping

  /** The message the `catch` chain `HttpException`, `IOException`,
      `Exception` of the sign-up and sign-in flows turns an exception into.
      Only an exception of neither class shows its own message. */
  function CaughtMessage(e: Throwable): (m: string)
    ensures e.kind == Http ==> m == HttpFailure
    ensures e.kind == IO ==> m == ServerUnreachable
    ensures e.kind !in {Http, IO} ==> m == (if e.message.Some? then e.message.value else UnknownError)
  {
    match e.kind
    case Http => HttpFailure
    case IO => ServerUnreachable
    case _ => if e.message.Some? then e.message.value else UnknownError
  }

  // ---------------------------------------------------------------------
  // Collision checks

  /** Which property of a profile a collision check compares. */
  datatype Key = ByEmail | ByUsername

  function KeyOf(u: User, key: Key): string
  {
    match key
    case ByEmail => u.userEmail
    case ByUsername => u.username
  }

  /** `userList.count { it?.<key> == value }`: null entries never match. */
  function CountMatching(users: seq<Option<User>>, key: Key, value: string): (n: nat)
    ensures n <= |users|
  {
    if users == [] then 0
    else CountMatching(users[1..], key, value)
         + (if users[0].Some? && KeyOf(users[0].value, key) == value then 1 else 0)
  }

  /** The count is non-zero exactly when some non-null entry matches. */
  lemma {:induction false} CountMatchingNonZero(users: seq<Option<User>>, key: Key, value: string)
    ensures CountMatching(users, key, value) != 0 <==>
      exists i :: 0 <= i < |users| && users[i].Some? && KeyOf(users[i].value, key) == value
  {
    if users != [] {
      CountMatchingNonZero(users[1..], key, value);
      if exists i :: 0 <= i < |users| && users[i].Some? && KeyOf(users[i].value, key) == value {
        var i :| 0 <= i < |users| && users[i].Some? && KeyOf(users[i].value, key) == value;
        if i > 0 { assert users[1..][i - 1] == users[i]; }
      }
      if exists i :: 0 <= i < |users| - 1 && users[1..][i].Some? && KeyOf(users[1..][i].value, key) == value {
        var i :| 0 <= i < |users| - 1 && users[1..][i].Some? && KeyOf(users[1..][i].value, key) == value;
        assert users[i + 1] == users[1..][i];
      }
    }
  }

  /** `isEmailAlreadyExists(userList, email)`. */
  function IsEmailAlreadyExists(userList: seq<Option<User>>, email: string): (b: bool)
    ensures b <==> exists i :: 0 <= i < |userList| && userList[i].Some? && userList[i].value.userEmail == email
  {
    CountMatchingNonZero(userList, ByEmail, email);
    CountMatching(userList, ByEmail, email) != 0
  }

  /** `isUsernameAlreadyExists(userList, username)`. The list it is given is
      ignored: it counts over a freshly fetched list, `freshUsers` here. */
  function IsUsernameAlreadyExists(freshUsers: seq<Option<User>>, username: string): (b: bool)
    ensures b <==> exists i :: 0 <= i < |freshUsers| && freshUsers[i].Some? && freshUsers[i].value.username == username
  {
    CountMatchingNonZero(freshUsers, ByUsername, username);
    CountMatching(freshUsers, ByUsername, username) != 0
  }

  // ---------------------------------------------------------------------
  // signUpWithEmail

  /** The result `signUpWithEmail` emits after `Loading`, if any: the first
      check that fails decides it, in the order email collision, username
      collision, account creation; an exception from any call is caught and
      mapped. A creation that returns no account emits nothing more. */
  function SignUpTerminal(username: string, email: string, calls: SignUpCalls): seq<SignInResult>
  {
    match calls.allUsers
    case Err(e) => [Failed(CaughtMessage(e))]
    case Ok(userList) =>
      if IsEmailAlreadyExists(userList, email) then [Failed(EmailInUse)]
      else match calls.allUsersAgain
        case Err(e) => [Failed(CaughtMessage(e))]
        case Ok(freshUsers) =>
          if IsUsernameAlreadyExists(freshUsers, username) then [Failed(UsernameInUse)]
          else match calls.createUser
            case Err(e) => [Failed(CaughtMessage(e))]
            case Ok(None) => []
            case Ok(Some(_)) => [Success]
  }

  /** Everything `signUpWithEmail` emits. */
  function SignUpEmissions(username: string, email: string, calls: SignUpCalls): (r: seq<SignInResult>)
    ensures 1 <= |r| <= 2 && r[0] == Loading
    ensures Loading !in r[1..]
    ensures Success in r ==> r == [Loading, Success] && calls.createUser.Ok? && calls.createUser.value.Some?
    // a failed fetch of the user list is caught: first the email check's,
    // then, once the email is free, the username check's
    ensures calls.allUsers.Err? ==> r == [Loading, Failed(CaughtMessage(calls.allUsers.error))]
    ensures calls.allUsers.Ok? && !IsEmailAlreadyExists(calls.allUsers.value, email) && calls.allUsersAgain.Err? ==>
      r == [Loading, Failed(CaughtMessage(calls.allUsersAgain.error))]
  {
    [Loading] + SignUpTerminal(username, email, calls)
  }

  /** `signUpWithEmail` as the flow builder runs it: emit, check, return early. */
  method SignUpWithEmail(username: string, email: string, calls: SignUpCalls) returns (emitted: seq<SignInResult>)
    ensures emitted == SignUpEmissions(username, email, calls)
  {
    emitted := [Loading];
    match calls.allUsers {
      case Err(e) =>
        emitted := emitted + [Failed(CaughtMessage(e))];
        return;
      case Ok(userList) =>
        if IsEmailAlreadyExists(userList, email) {
          emitted := emitted + [Failed(EmailInUse)];
          return;
        }
    }
    match calls.allUsersAgain {
      case Err(e) =>
        emitted := emitted + [Failed(CaughtMessage(e))];
        return;
      case Ok(freshUsers) =>
        if IsUsernameAlreadyExists(freshUsers, username) {
          emitted := emitted + [Failed(UsernameInUse)];
          return;
        }
    }
    match calls.createUser {
      case Err(e) =>
        emitted := emitted + [Failed(CaughtMessage(e))];
      case Ok(user) =>
        if user.Some? {
          emitted := emitted + [Success];
        }
    }
  }

  /** A taken email ends the flow with its message before the username is
      checked or an account is created: the later calls do not matter. */
  lemma EmailCollisionFirst(username: string, email: string, calls: SignUpCalls,
                            again: Call<seq<Option<User>>>, create: Call<Option<string>>)
    requires calls.allUsers.Ok? && IsEmailAlreadyExists(calls.allUsers.value, email)
    ensures SignUpEmissions(username, email, calls) == [Loading, Failed(EmailInUse)]
    ensures SignUpEmissions(username, email, calls.(allUsersAgain := again, createUser := create))
            == SignUpEmissions(username, email, calls)
  {
  }

  /** A free email and a taken username end the flow with the username
      message, whatever account creation would have done. */
  lemma UsernameCollisionSecond(username: string, email: string, calls: SignUpCalls,
                                create: Call<Option<string>>)
    requires calls.allUsers.Ok? && !IsEmailAlreadyExists(calls.allUsers.value, email)
    requires calls.allUsersAgain.Ok? && IsUsernameAlreadyExists(calls.allUsersAgain.value, username)
    ensures SignUpEmissions(username, email, calls) == [Loading, Failed(UsernameInUse)]
    ensures SignUpEmissions(username, email, calls.(createUser := create))
            == SignUpEmissions(username, email, calls)
  {
  }

  /** With both checks passed, creation decides: an account gives `Success`,
      none gives `Loading` alone, an exception its mapped message. */
  lemma CreationDecides(username: string, email: string, calls: SignUpCalls)
    requires calls.allUsers.Ok? && !IsEmailAlreadyExists(calls.allUsers.value, email)
    requires calls.allUsersAgain.Ok? && !IsUsernameAlreadyExists(calls.allUsersAgain.value, username)
    ensures calls.createUser.Ok? && calls.createUser.value.Some? ==>
      SignUpEmissions(username, email, calls) == [Loading, Success]
    ensures calls.createUser == Ok(None) ==> SignUpEmissions(username, email, calls) == [Loading]
    ensures calls.createUser.Err? ==>
      SignUpEmissions(username, email, calls) == [Loading, Failed(CaughtMessage(calls.createUser.error))]
  {
  }

  /** A username already in the store is refused with no account created, as
      in: a free email, "abc_123" taken, creation never reached. */
  lemma DuplicateUsernameScenario(other: User, create: Call<Option<string>>)
    requires other.username == "abc_123" && other.userEmail != "a@b.com"
    ensures var calls := SignUpCalls(Ok([Some(other)]), Ok([None, Some(other)]), create);
      SignUpEmissions("abc_123", "a@b.com", calls) == [Loading, Failed(UsernameInUse)]
  {
    assert [Some(other)][0] == Some(other);
    assert [None, Some(other)][1] == Some(other);
  }

  // ---------------------------------------------------------------------
  // signInWithEmail

  /** Everything `signInWithEmail` emits, given the uid of the account the
      SDK signs in (null when none). */
  function SignInEmissions(signIn: Call<Option<string>>): (r: seq<SignInResult>)
    ensures |r| == 2 && r[0] == Loading && r[1] != Loading
    ensures r[1] == Success <==> signIn.Ok? && signIn.value.Some?
    ensures signIn == Ok(None) ==> r[1] == Failed(NoSuchUser)
    ensures signIn.Err? ==> r[1] == Failed(CaughtMessage(signIn.error))
  {
    match signIn
    case Ok(Some(_)) => [Loading, Success]
    case Ok(None) => [Loading, Failed(NoSuchUser)]
    case Err(e) => [Loading, Failed(CaughtMessage(e))]
  }

  /** `signInWithEmail` as the flow builder runs it. */
  method SignInWithEmail(signIn: Call<Option<string>>) returns (emitted: seq<SignInResult>)
    ensures emitted == SignInEmissions(signIn)
  {
    emitted := [Loading];
    match signIn {
      case Ok(user) =>
        if user.Some? {
          emitted := emitted + [Success];
        } else {
          emitted := emitted + [Failed(NoSuchUser)];
        }
      case Err(e) =>
        emitted := emitted + [Failed(CaughtMessage(e))];
    }
  }

  // ---------------------------------------------------------------------
  // addUser and the profile store

  /** The `users` collection: documents by id. */
  type ProfileStore = map<string, Document>

  /** `userRef.document(user.userId).set(user)`. */
  function SetUser(store: ProfileStore, user: User): ProfileStore
  {
    store[user.userId := ToDocument(user)]
  }

  /** `getUser(userId)`: null when there is no document; a document `toUser`
      cannot read makes it throw. */
  function GetUser(store: ProfileStore, userId: string): Result<Option<User>, DecodeError>
  {
    if userId !in store then Ok(None)
    else match ToUser(store[userId])
      case Ok(u) => Ok(Some(u))
      case Err(e) => Err(e)
  }

  /** A profile written by `addUser` is read back unchanged by `getUser`, and
      no other profile changes. */
  lemma GetAfterSet(store: ProfileStore, user: User, userId: string)
    ensures GetUser(SetUser(store, user), user.userId) == Ok(Some(user))
    ensures userId != user.userId ==> GetUser(SetUser(store, user), userId) == GetUser(store, userId)
  {
    DecodeStored(user);
  }

  /** Everything `addUser` emits, given the outcome of the document write.
      Only a `CancellationException` is caught; any other exception escapes
      the flow after `Loading`. */
  function AddUserRun(write: Call<()>): (r: FlowRun)
    ensures 1 <= |r.emitted| <= 2 && r.emitted[0] == Loading
    ensures r.escaped.None? <==> |r.emitted| == 2
    ensures write.Ok? <==> r.emitted == [Loading, Success]
    ensures r.escaped.Some? <==> write.Err? && write.error.kind != Cancellation
    ensures write.Err? && write.error.kind == Cancellation ==>
      r.emitted == [Loading, Failed(if write.error.message.Some? then write.error.message.value else UnknownError)]
  {
    match write
    case Ok(_) => FlowRun([Loading, Success], None)
    case Err(e) =>
      if e.kind == Cancellation then
        FlowRun([Loading, Failed(if e.message.Some? then e.message.value else UnknownError)], None)
      else FlowRun([Loading], Some(e))
  }

  /** `addUser` as the flow builder runs it, on the `users` collection
      `store`: `write` is the outcome of `set(user)`, which stores `user`
      under its id when it completes. */
  method AddUser(user: User, store: ProfileStore, write: Call<()>) returns (run: FlowRun, stored: ProfileStore)
    ensures run == AddUserRun(write)
    ensures stored == if write.Ok? then SetUser(store, user) else store
    ensures write.Ok? ==> GetUser(stored, user.userId) == Ok(Some(user))
  {
    var emitted := [Loading];
    stored := store;
    match write {
      case Ok(_) =>
        stored := SetUser(store, user);
        GetAfterSet(store, user, user.userId);
        emitted := emitted + [Success];
        run := FlowRun(emitted, None);
      case Err(e) =>
        if e.kind == Cancellation {
          emitted := emitted + [Failed(if e.message.Some? then e.message.value else UnknownError)];
          run := FlowRun(emitted, None);
        } else {
          run := FlowRun(emitted, Some(e));
        }
    }
  }
}

=== FILE: firebase_utils.dfy ===
/** The results a repository flow emits (FirebaseUtils.kt). */
module FirebaseUtils {
  datatype SignInResult = Loading | Success | Failed(message: string)
}

=== FILE: google_auth_ui_client.dfy ===
/** The federated sign-in and sign-up decision of `GoogleAuthUiClient`
    (`getSignInResponseFromIntent`).

    Extracting the token from the intent and the calls to the identity
    service and the profile store are not modelled; their outcomes are
    parameters. The callback `onSignUpSuccessful` becomes an extra output:
    the profile it is called with, if it is called. */
module GoogleAuthUiClient {
  import opened Common
  import opened UserModel
  import opened SignInUtils

  const GoogleUnknownError := "An unknown error occurred while signing in with google. Please try again later"
  const NoLinkedAccount := "No account found linked with this email. To add a new account please sign up"
  const AlreadyLinked := "Account already linked with this email. Please login"
  const NoEmail := "No email is linked with this email. Please try a different account"

  /** The account `signInWithCredential` returns: its uid, email and photo URL. */
  datatype FirebaseAccount = FirebaseAccount(uid: string, email: Option<string>, photoUrl: Option<string>)

  /** The two calls made inside the `try`: the credential sign-in (null when
      it returns no account) and `getUser` on the account's uid. */
  datatype GoogleCalls = GoogleCalls(signIn: Call<Option<FirebaseAccount>>, storedProfile: Call<Option<User>>)

  /** The call either returns a response, having called the callback with
      `callbackUser` if that is present, or rethrows a cancellation. */
  datatype GoogleOutcome =
    | Responded(response: SignInResponse, callbackUser: Option<User>)
    | Rethrown(cancellation: Throwable)

  /** The `catch (e: Exception)` clause: a cancellation is rethrown, anything
      else becomes an error response carrying the exception's message. */
  function Caught(e: Throwable): GoogleOutcome
  {
    if e.kind == Cancellation then Rethrown(e)
    else Responded(SignInResponse(None, e.message), None)
  }

  /** `email.isNullOrEmpty()`. */
  predicate IsNullOrEmpty(s: Option<string>)
  {
    s.None? || s.value == ""
  }

  /** The profile handed to the callback on a successful sign-up. */
  function NewGoogleProfile(account: FirebaseAccount, username: string, now: Long): (u: User)
    requires !IsNullOrEmpty(account.email)
  {
    DefaultUser(now).(userId := account.uid, username := username,
                      userEmail := account.email.value, userProfileImage := account.photoUrl)
  }

  /** `getSignInResponseFromIntent(intent, action, username, onSignUpSuccessful)`;
      `hasCallback` says whether a callback was supplied and `now` is the
      clock reading the new profile's `addedAt` defaults to. */
  function GetSignInResponseFromIntent(action: SignInAction, username: Option<string>, hasCallback: bool,
                                       calls: GoogleCalls, now: Long): (r: GoogleOutcome)
    // a profile is returned only when signing in to an account that has one
    ensures r.Responded? && r.response.data.Some? <==>
      action == SignIn && calls.signIn.Ok? && calls.signIn.value.Some?
      && calls.storedProfile.Ok? && calls.storedProfile.value.Some?
    ensures r.Responded? && r.response.data.Some? ==> r.response == SignInResponse(calls.storedProfile.value, None)
    // the callback runs at most once, only on a sign-up that succeeds, with the new profile
    ensures r.Responded? && r.callbackUser.Some? <==>
      action == SignUp && hasCallback && username.Some?
      && calls.signIn.Ok? && calls.signIn.value.Some? && !IsNullOrEmpty(calls.signIn.value.value.email)
      && calls.storedProfile == Ok(None)
    ensures r.Responded? && r.callbackUser.Some? ==>
      r.response == SignInResponse(None, None)
      && r.callbackUser.value == NewGoogleProfile(calls.signIn.value.value, username.value, now)
    // only a cancellation escapes, and a cancellation from either call does
    ensures r.Rethrown? ==> r.cancellation.kind == Cancellation
    ensures calls.signIn.Err? && calls.signIn.error.kind == Cancellation ==> r == Rethrown(calls.signIn.error)
    ensures (calls.signIn.Ok? && calls.signIn.value.Some?
             && calls.storedProfile.Err? && calls.storedProfile.error.kind == Cancellation) ==>
      r == Rethrown(calls.storedProfile.error)
  {
    match calls.signIn
    case Err(e) => Caught(e)
    case Ok(None) => Responded(SignInResponse(None, Some(GoogleUnknownError)), None)
    case Ok(Some(account)) =>
      match calls.storedProfile
      case Err(e) => Caught(e)
      case Ok(user) =>
        match action
        case SignIn =>
          if user.None? then Responded(SignInResponse(None, Some(NoLinkedAccount)), None)
          else Responded(SignInResponse(user, None), None)
        case SignUp =>
          if user.Some? then Responded(SignInResponse(None, Some(AlreadyLinked)), None)
          else if IsNullOrEmpty(account.email) then Responded(SignInResponse(None, Some(NoEmail)), None)
          else if !hasCallback then Responded(SignInResponse(None, None), None)
          else match username
            // `username!!` throws a NullPointerException without a message
            case None => Caught(Throwable(Other, None))
            case Some(name) => Responded(SignInResponse(None, None), Some(NewGoogleProfile(account, name, now)))
  }

  /** No account from the credential sign-in: the generic error. */
  lemma NoAccountResponse(action: SignInAction, username: Option<string>, hasCallback: bool,
                          calls: GoogleCalls, now: Long)
    requires calls.signIn == Ok(None)
    ensures GetSignInResponseFromIntent(action, username, hasCallback, calls, now)
            == Responded(SignInResponse(None, Some(GoogleUnknownError)), None)
  {
  }

  /** Signing in: no stored profile gives the not-linked error, a stored
      profile is returned as it is. */
  lemma SignInResponses(account: FirebaseAccount, username: Option<string>, hasCallback: bool,
                        profile: Option<User>, now: Long)
    ensures var r := GetSignInResponseFromIntent(SignIn, username, hasCallback,
                                                 GoogleCalls(Ok(Some(account)), Ok(profile)), now);
      r == if profile.None? then Responded(SignInResponse(None, Some(NoLinkedAccount)), None)
           else Responded(SignInResponse(profile, None), None)
  {
  }

  /** Signing up: an existing profile, then a missing email, refuse the
      sign-up without calling back, whether or not a callback was supplied;
      otherwise the response is empty, and a supplied callback gets the new
      profile. */
  lemma SignUpResponses(account: FirebaseAccount, username: Option<string>, hasCallback: bool,
                        profile: Option<User>, now: Long)
    ensures var r := GetSignInResponseFromIntent(SignUp, username, hasCallback,
                                                 GoogleCalls(Ok(Some(account)), Ok(profile)), now);
      && (profile.Some? ==> r == Responded(SignInResponse(None, Some(AlreadyLinked)), None))
      && (profile.None? && IsNullOrEmpty(account.email) ==> r == Responded(SignInResponse(None, Some(NoEmail)), None))
      && (profile.None? && !IsNullOrEmpty(account.email) && hasCallback && username.Some? ==>
            r == Responded(SignInResponse(None, None),
                           Some(User(account.uid, username.value, account.email.value, account.photoUrl,
                                     DefaultBio, None, now))))
      && (profile.None? && !IsNullOrEmpty(account.email) && !(hasCallback && username.Some?) ==>
            r == Responded(SignInResponse(None, None), None))
  {
  }

  /** An exception other than a cancellation, from either call, becomes an
      error response with the exception's message. */
  lemma ExceptionResponse(action: SignInAction, username: Option<string>, hasCallback: bool,
                          e: Throwable, account: FirebaseAccount, stored: Call<Option<User>>, now: Long)
    requires e.kind != Cancellation
    // the profile lookup is never made after a failed credential sign-in
    ensures GetSignInResponseFromIntent(action, username, hasCallback, GoogleCalls(Err(e), stored), now)
            == Responded(SignInResponse(None, e.message), None)
    ensures GetSignInResponseFromIntent(action, username, hasCallback, GoogleCalls(Ok(Some(account)), Err(e)), now)
            == Responded(SignInResponse(None, e.message), None)
  {
  }
}

=== FILE: sign_in_utils.dfy ===
/** The credential checks of the sign-in and sign-up screens (SignInUtils.kt)
    and the small state records the authentication screens publish.

    Every check returns the first message of a fixed priority order, or ""
    when the input passes. The email address pattern of the platform
    (`android.util.Patterns.EMAIL_ADDRESS`) is not part of this model: the
    checks take it as the parameter `emailPattern`, a whole-input match. */
module SignInUtils {
  import opened Common
  import opened UserModel

  /** An opaque `android.net.Uri`. */
  datatype Uri = Uri(text: string)

  /** What the federated sign-in hands back: a profile or an error, both nullable. */
  datatype SignInResponse = SignInResponse(data: Option<User>, error: Option<string>)

  datatype SignInState = SignInState(isSignInSuccessful: bool, signInError: Option<string>, isLoading: bool)

  const DefaultSignInState := SignInState(false, None, false)

  datatype SignupState = SignupState(
    imageUri: Option<Uri>,
    isImageLoading: bool,
    isSigningUp: bool,
    error: string,
    isSignUpSuccessful: bool)

  const DefaultSignupState := SignupState(None, false, false, "", false)

  datatype SignInAction = SignIn | SignUp

  const EmailEmpty := "Email can't be empty"
  const EmailMalformed := "Please provide a valid email address"
  const PasswordLength := "The password must be at least 8 characters long and no more than 30 characters long."
  const PasswordInvalid := "Invalid password. Please enter a valid password"
  const UsernameEmpty := "Username can't be empty. Please provide a username."
  const UsernameLength := "The username must be at least 3 characters long and no more than 30 characters long."
  const UsernameCharset := "The username must only contain alphanumeric characters and underscores."
  const UsernameUnderscore := "The username must not start or end with an underscore."

  // ---------------------------------------------------------------------
  // Character classes

  /** Kotlin's `Char.isWhitespace()` on the JVM: `Character.isWhitespace` or
      `Character.isSpaceChar`, that is the control characters U+0009 to
      U+000D and U+001C to U+001F, and the Unicode space, line and paragraph
      separators. */
  predicate IsWhitespace(c: char)
  {
    ('\t' <= c <= '\r') || ('\U{1C}' <= c <= '\U{1F}')
    || c == ' ' || c == '\U{A0}' || c == '\U{1680}'
    || ('\U{2000}' <= c <= '\U{200A}')
    || c == '\U{2028}' || c == '\U{2029}'
    || c == '\U{202F}' || c == '\U{205F}' || c == '\U{3000}'
  }

  /** Kotlin's `CharSequence.isBlank()`: empty or whitespace only. */
  predicate IsBlank(s: string)
  {
    forall i :: 0 <= i < |s| ==> IsWhitespace(s[i])
  }

  /** The characters `.` does not match, and `$` may stand before at the end,
      in a pattern compiled without flags by Android's ICU-based
      `java.util.regex`: the line terminators, which there include the
      vertical tab and the form feed. */
  predicate IsLineTerminator(c: char)
  {
    ('\n' <= c <= '\r') || c == '\U{85}' || c == '\U{2028}' || c == '\U{2029}'
  }

  /** The class `[a-zA-Z0-9_.]`. */
  predicate IsUsernameChar(c: char)
  {
    ('a' <= c <= 'z') || ('A' <= c <= 'Z') || ('0' <= c <= '9') || c == '_' || c == '.'
  }

  // ---------------------------------------------------------------------
  // The password pattern `^(?=.{8,32}$)(?!-).*$`, matched with
  // `String.matches`, which must consume the whole input.

  /** How many leading characters `.` can consume. */
  function DotRun(s: string): (n: nat)
    ensures n <= |s|
    ensures forall i :: 0 <= i < n ==> !IsLineTerminator(s[i])
    ensures n < |s| ==> IsLineTerminator(s[n])
  {
    if s == [] || IsLineTerminator(s[0]) then 0 else 1 + DotRun(s[1..])
  }

  /** Where `$` matches without MULTILINE: at the end of the input, or just
      before a line terminator (`\r\n` counting as one) that ends it. */
  predicate DollarAt(s: string, i: nat)
  {
    i == |s|
    || (i + 1 == |s| && IsLineTerminator(s[i]))
    || (i + 2 == |s| && s[i] == '\r' && s[i + 1] == '\n')
  }

  /** `^(?=.{8,hi}$)(?!-).*$` matches the whole of `p`. The look-ahead needs
      some run of 8 to `hi` non-terminators followed by `$`; `(?!-)` refuses a
      leading hyphen; `.*$` must then reach the end of the input, because
      `matches` consumes all of it. */
  predicate PasswordPatternMatches(p: string, hi: nat)
  {
    (exists k :: 8 <= k <= hi && k <= DotRun(p) && DollarAt(p, k))
    && !(|p| > 0 && p[0] == '-')
    && DotRun(p) == |p|
  }

  /** The upper bound in `passRegex`. */
  const PassRegexMax := 32

  /** `password.matches(passRegex)`. */
  predicate MatchesPassRegex(p: string)
  {
    PasswordPatternMatches(p, PassRegexMax)
  }

  /** What the password pattern accepts, stated without the regex: 8 to `hi`
      characters, no leading hyphen, no line terminator anywhere. */
  lemma PasswordPatternShape(p: string, hi: nat)
    ensures PasswordPatternMatches(p, hi) <==>
      8 <= |p| <= hi && p[0] != '-' && forall i :: 0 <= i < |p| ==> !IsLineTerminator(p[i])
  {
    if PasswordPatternMatches(p, hi) {
      var k :| 8 <= k <= hi && k <= DotRun(p) && DollarAt(p, k);
      if k < |p| {
        assert IsLineTerminator(p[k]) by { assert k + 1 == |p| || k + 2 == |p|; }
      }
    }
    if 8 <= |p| <= hi && p[0] != '-' && forall i :: 0 <= i < |p| ==> !IsLineTerminator(p[i]) {
      assert DollarAt(p, |p|);
    }
  }

  // ---------------------------------------------------------------------
  // The checks

  /** `isEmailValid`: blank first, then the address pattern. */
  function IsEmailValid(email: string, emailPattern: string -> bool): (r: string)
    ensures r == "" <==> !IsBlank(email) && emailPattern(email)
    ensures r != "" ==> r == (if IsBlank(email) then EmailEmpty else EmailMalformed)
  {
    if IsBlank(email) then EmailEmpty
    else if !emailPattern(email) then EmailMalformed
    else ""
  }

  /** `isUsernameValid`: blank, then length 3..30, then the character class,
      then no underscore at either end. A username passes exactly when it has
      3 to 30 characters from `[a-zA-Z0-9_.]` and neither starts nor ends with
      an underscore; it need not be checked for blankness, since no character
      of the class is whitespace. */
  function IsUsernameValid(username: string): (r: string)
    ensures r == "" <==>
      3 <= |username| <= 30
      && (forall i :: 0 <= i < |username| ==> IsUsernameChar(username[i]))
      && username[0] != '_' && username[|username| - 1] != '_'
    ensures r in {"", UsernameEmpty, UsernameLength, UsernameCharset, UsernameUnderscore}
  {
    if |username| == 0 || IsBlank(username) then UsernameEmpty
    else if |username| < 3 || |username| > 30 then UsernameLength
    else if !(forall i :: 0 <= i < |username| ==> IsUsernameChar(username[i])) then UsernameCharset
    else if username[0] == '_' || username[|username| - 1] == '_' then UsernameUnderscore
    else ""
  }

  /** `verifySignInDetails`: email blank, email pattern, password length
      (only for a non-blank password), password pattern. */
  function VerifySignInDetails(email: string, password: string, emailPattern: string -> bool): (r: string)
    ensures IsEmailValid(email, emailPattern) != "" ==> r == IsEmailValid(email, emailPattern)
    // accepted exactly when the email passes and the password has 8 to 32
    // characters (at most 30 unless it is blank), no leading hyphen and no
    // line terminator
    ensures r == "" <==>
      && IsEmailValid(email, emailPattern) == ""
      && 8 <= |password| <= PassRegexMax
      && password[0] != '-'
      && (forall i :: 0 <= i < |password| ==> !IsLineTerminator(password[i]))
      && (IsBlank(password) || |password| <= 30)
    // a refused password with a valid email gets one of the two password messages
    ensures IsEmailValid(email, emailPattern) == "" ==> r in {"", PasswordLength, PasswordInvalid}
  {
    PasswordPatternShape(password, PassRegexMax);
    if IsBlank(email) then EmailEmpty
    else if !emailPattern(email) then EmailMalformed
    else if (|password| < 8 || |password| > 30) && !IsBlank(password) then PasswordLength
    else if !MatchesPassRegex(password) then PasswordInvalid
    else ""
  }

  /** `verifySignUpDetails`: the sign-in checks in the same order, then the
      username. Email and password errors always win over username errors. */
  function VerifySignUpDetails(email: string, username: string, password: string,
                               emailPattern: string -> bool): (r: string)
    ensures r == (var m := VerifySignInDetails(email, password, emailPattern);
                  if m != "" then m else IsUsernameValid(username))
  {
    var usernameInvalidMessage := IsUsernameValid(username);
    if IsBlank(email) then EmailEmpty
    else if !emailPattern(email) then EmailMalformed
    else if (|password| < 8 || |password| > 30) && !IsBlank(password) then PasswordLength
    else if !MatchesPassRegex(password) then PasswordInvalid
    else if usernameInvalidMessage != "" then usernameInvalidMessage
    else ""
  }

  // ---------------------------------------------------------------------
  // Properties of the checks

  /** The username checks stop at the first failure, in the order blank,
      length, character class, underscore: each message is given exactly
      when its rule fails and every earlier rule passes. */
  lemma UsernameChecksInOrder(username: string)
    ensures IsUsernameValid(username) == UsernameEmpty <==> IsBlank(username)
    ensures IsUsernameValid(username) == UsernameLength <==>
      !IsBlank(username) && (|username| < 3 || |username| > 30)
    ensures IsUsernameValid(username) == UsernameCharset <==>
      && !IsBlank(username) && 3 <= |username| <= 30
      && exists i :: 0 <= i < |username| && !IsUsernameChar(username[i])
    ensures IsUsernameValid(username) == UsernameUnderscore <==>
      && 3 <= |username| <= 30
      && (forall i :: 0 <= i < |username| ==> IsUsernameChar(username[i]))
      && (username[0] == '_' || username[|username| - 1] == '_')
  {
    if 3 <= |username| && (forall i :: 0 <= i < |username| ==> IsUsernameChar(username[i])) {
      assert !IsWhitespace(username[0]);
    }
  }

  /** The order on examples: "_a" is too short, so the underscore rule is
      never reached; "_ab" reaches it; "a b" fails the character class. */
  lemma UsernameCheckExamples()
    ensures IsUsernameValid("_a") == UsernameLength
    ensures IsUsernameValid("_ab") == UsernameUnderscore
    ensures IsUsernameValid("a b") == UsernameCharset
    ensures IsUsernameValid("   ") == UsernameEmpty
  {
    assert !IsWhitespace("_a"[0]) && |"_a"| == 2;
    assert !IsWhitespace("_ab"[0]) && "_ab"[0] == '_';
    assert forall i :: 0 <= i < |"_ab"| ==> IsUsernameChar("_ab"[i]);
    assert !IsWhitespace("a b"[0]) && !IsUsernameChar("a b"[1]);
  }

  /** An email error wins whatever the password and username. */
  lemma EmailErrorFirst(email: string, username: string, password: string, emailPattern: string -> bool)
    requires IsEmailValid(email, emailPattern) != ""
    ensures VerifySignInDetails(email, password, emailPattern) == IsEmailValid(email, emailPattern)
    ensures VerifySignUpDetails(email, username, password, emailPattern) == IsEmailValid(email, emailPattern)
  {
  }

  /** With a valid email, the sign-in checks give the length message exactly
      to a non-blank password shorter than 8 or longer than 30 characters, and
      the sign-up check gives it to those too; any other refused password
      gets the invalid-password message. */
  lemma PasswordLengthMessage(email: string, username: string, password: string, emailPattern: string -> bool)
    requires IsEmailValid(email, emailPattern) == ""
    ensures VerifySignInDetails(email, password, emailPattern) == PasswordLength <==>
      !IsBlank(password) && (|password| < 8 || |password| > 30)
    ensures VerifySignInDetailsCorrected(email, password, emailPattern) == PasswordLength <==>
      !IsBlank(password) && (|password| < 8 || |password| > 30)
    ensures !IsBlank(password) && (|password| < 8 || |password| > 30) ==>
      VerifySignUpDetails(email, username, password, emailPattern) == PasswordLength
    // the empty password, in particular, gets the invalid-password message
    ensures VerifySignInDetails(email, "", emailPattern) == PasswordInvalid
  {
    PasswordPatternShape("", PassRegexMax);
  }

  /** With a valid email, a password of the right length that starts with a
      hyphen gets the invalid-password message. */
  lemma LeadingHyphenRefused(email: string, username: string, password: string, emailPattern: string -> bool)
    requires IsEmailValid(email, emailPattern) == ""
    requires 8 <= |password| <= 30 && password[0] == '-'
    ensures VerifySignInDetails(email, password, emailPattern) == PasswordInvalid
    ensures VerifySignUpDetails(email, username, password, emailPattern) == PasswordInvalid
  {
    assert !IsWhitespace(password[0]);
    PasswordPatternShape(password, PassRegexMax);
  }

  /** The length check skips blank passwords and the pattern allows up to 32
      characters, so a password of 31 spaces is accepted, though the length
      message promises at most 30 characters. */
  lemma BlankLongPasswordAccepted(email: string, emailPattern: string -> bool)
    requires IsEmailValid(email, emailPattern) == ""
    ensures var p := seq(31, _ => ' ');
      |p| == 31 && IsBlank(p) && VerifySignInDetails(email, p, emailPattern) == ""
  {
    var p := seq(31, _ => ' ');
    assert DollarAt(p, 31);
    assert PasswordPatternMatches(p, PassRegexMax);
  }

  // ---------------------------------------------------------------------
  // The password check with the pattern bound set to 30, as the length
  // message states.

  /** The upper bound the length message states. */
  const StatedPasswordMax := 30

  /** `verifySignInDetails` with `passRegex` bounded by 30 instead of 32. */
  function VerifySignInDetailsCorrected(email: string, password: string, emailPattern: string -> bool): (r: string)
    ensures IsEmailValid(email, emailPattern) != "" ==> r == IsEmailValid(email, emailPattern)
    ensures r == "" <==>
      && IsEmailValid(email, emailPattern) == ""
      && 8 <= |password| <= StatedPasswordMax
      && password[0] != '-'
      && (forall i :: 0 <= i < |password| ==> !IsLineTerminator(password[i]))
    ensures IsEmailValid(email, emailPattern) == "" ==> r in {"", PasswordLength, PasswordInvalid}
  {
    PasswordPatternShape(password, StatedPasswordMax);
    if IsBlank(email) then EmailEmpty
    else if !emailPattern(email) then EmailMalformed
    else if (|password| < 8 || |password| > 30) && !IsBlank(password) then PasswordLength
    else if !PasswordPatternMatches(password, StatedPasswordMax) then PasswordInvalid
    else ""
  }

  /** The correction changes the verdict only for whitespace-only passwords of
      31 or 32 characters, which it refuses. */
  lemma CorrectionOnlyRefusesLongBlank(email: string, password: string, emailPattern: string -> bool)
    ensures VerifySignInDetailsCorrected(email, password, emailPattern)
            != VerifySignInDetails(email, password, emailPattern) ==>
      IsBlank(password) && 31 <= |password| <= 32
      && VerifySignInDetails(email, password, emailPattern) == ""
      && VerifySignInDetailsCorrected(email, password, emailPattern) == PasswordInvalid
  {
    PasswordPatternShape(password, StatedPasswordMax);
    PasswordPatternShape(password, PassRegexMax);
  }
}

=== FILE: user_model.dfy ===
/** The `User` record (UserModel.kt): a profile as stored in the `users`
    collection, and `toUser`, which rebuilds one from a document's
    string-keyed map. */
module UserModel {
  import opened Common

  /** The default biography of a new profile. */
  const DefaultBio: string := "Hey there! I'm using ChatMate\U{1F525}"

  datatype User = User(
    userId: string,
    username: string,
    userEmail: string,
    userProfileImage: Option<string>,
    userBio: string,
    userBioLink: Option<string>,
    addedAt: Long)

  /** `User()` with every argument at its default; `now` is what
      `System.currentTimeMillis()` returns while it is built. Callers that
      name some arguments write `DefaultUser(now).(userId := ..., ...)`. */
  function DefaultUser(now: Long): User
  {
    User("", "", "", None, DefaultBio, None, now)
  }

  /** A value of a document's `Map<String, Any>`: a string, a whole number
      (Firestore hands them out as `Long`), an explicit null, or a value of
      any other type. */
  datatype FieldValue = Text(text: string) | Integer(number: Long) | Null | OtherValue

  type Document = map<string, FieldValue>

  /** Why `toUser` throws: `!!` on an absent or null entry throws a
      NullPointerException, `as` on a value of another type a
      ClassCastException. Each names the key being read. */
  datatype DecodeError = NullField(key: string) | WrongType(key: string)

  /** How `toUser` reads a key: `!! as String`, `as String?` or `!! as Long`. */
  datatype FieldKind = RequiredText | OptionalText | RequiredLong

  /** The keys `toUser` reads, in the order it reads them. */
  const UserFields: seq<(string, FieldKind)> := [
    ("userId", RequiredText), ("username", RequiredText), ("userEmail", RequiredText),
    ("userProfileImage", OptionalText), ("userBio", RequiredText),
    ("userBioLink", OptionalText), ("addedAt", RequiredLong)]

  /** The document holds a value `toUser` can read for this key. */
  predicate FieldReadable(doc: Document, field: (string, FieldKind))
  {
    var key := field.0;
    match field.1
    case RequiredText => key in doc && doc[key].Text?
    case OptionalText => key in doc ==> doc[key].Text? || doc[key].Null?
    case RequiredLong => key in doc && doc[key].Integer?
  }

  /** Every key `toUser` reads is readable. */
  predicate IsUserDocument(doc: Document)
  {
    forall i :: 0 <= i < |UserFields| ==> FieldReadable(doc, UserFields[i])
  }

  function RequiredString(doc: Document, key: string): Result<string, DecodeError>
  {
    if key !in doc || doc[key].Null? then Err(NullField(key))
    else if doc[key].Text? then Ok(doc[key].text)
    else Err(WrongType(key))
  }

  function OptionalString(doc: Document, key: string): Result<Option<string>, DecodeError>
  {
    if key !in doc || doc[key].Null? then Ok(None)
    else if doc[key].Text? then Ok(Some(doc[key].text))
    else Err(WrongType(key))
  }

  function RequiredLongValue(doc: Document, key: string): Result<Long, DecodeError>
  {
    if key !in doc || doc[key].Null? then Err(NullField(key))
    else if doc[key].Integer? then Ok(doc[key].number)
    else Err(WrongType(key))
  }

  /** The document stores `v` under `key`. */
  predicate Holds(doc: Document, key: string, v: FieldValue)
  {
    key in doc && doc[key] == v
  }

  /** The text of an optional string field, or null when it is absent. */
  function TextOrNone(doc: Document, key: string): Option<string>
  {
    if key in doc && doc[key].Text? then Some(doc[key].text) else None
  }

  /** `Map<String, Any>.toUser()`: reads the seven keys in argument order and
      throws at the first one it cannot read. */
  function ToUser(doc: Document): (r: Result<User, DecodeError>)
    ensures r.Ok? <==> IsUserDocument(doc)
    ensures r.Ok? ==>
      && Holds(doc, "userId", Text(r.value.userId))
      && Holds(doc, "username", Text(r.value.username))
      && Holds(doc, "userEmail", Text(r.value.userEmail))
      && r.value.userProfileImage == TextOrNone(doc, "userProfileImage")
      && Holds(doc, "userBio", Text(r.value.userBio))
      && r.value.userBioLink == TextOrNone(doc, "userBioLink")
      && Holds(doc, "addedAt", Integer(r.value.addedAt))
    ensures r.Err? ==>
      exists j :: 0 <= j < |UserFields| && UserFields[j].0 == r.error.key
        && !FieldReadable(doc, UserFields[j])
        && (forall i :: 0 <= i < j ==> FieldReadable(doc, UserFields[i]))
    ensures r.Err? ==>
      (r.error.NullField? <==> r.error.key !in doc || doc[r.error.key].Null?)
  {
    assert UserFields[0] == ("userId", RequiredText) && UserFields[1] == ("username", RequiredText);
    assert UserFields[2] == ("userEmail", RequiredText) && UserFields[3] == ("userProfileImage", OptionalText);
    assert UserFields[4] == ("userBio", RequiredText) && UserFields[5] == ("userBioLink", OptionalText);
    assert UserFields[6] == ("addedAt", RequiredLong);
    var userId :- RequiredString(doc, "userId");
    var username :- RequiredString(doc, "username");
    var userEmail :- RequiredString(doc, "userEmail");
    var userProfileImage :- OptionalString(doc, "userProfileImage");
    var userBio :- RequiredString(doc, "userBio");
    var userBioLink :- OptionalString(doc, "userBioLink");
    var addedAt :- RequiredLongValue(doc, "addedAt");
    Ok(User(userId, username, userEmail, userProfileImage, userBio, userBioLink, addedAt))
  }

  function NullableText(s: Option<string>): FieldValue
  {
    if s.Some? then Text(s.value) else Null
  }

  /** The document `set(user)` writes: one entry per property of `User`, a
      null property stored as an explicit null. */
  function ToDocument(u: User): (doc: Document)
    ensures IsUserDocument(doc)
  {
    map["userId" := Text(u.userId), "username" := Text(u.username),
        "userEmail" := Text(u.userEmail),
        "userProfileImage" := NullableText(u.userProfileImage),
        "userBio" := Text(u.userBio),
        "userBioLink" := NullableText(u.userBioLink),
        "addedAt" := Integer(u.addedAt)]
  }

  /** Reading back a stored profile gives the profile that was stored. */
  lemma DecodeStored(u: User)
    ensures ToUser(ToDocument(u)) == Ok(u)
  {
  }
}
